=== FILE: README.md ===
# Notification dispatch core of mui-toastify, in Dafny

This project models the coordination core of the mui-toastify notification
library. That core is `core/model.ts` together with the mapper in
`utils/mapper.ts`. The core sits between the code that requests
notifications (`model(...)`, `model.success(...)`, `model.loading(...)`, …)
and the containers that display them. Its parts are:

- a registry of mounted containers, keyed by container id or by the instance itself;
- the key of the most recently mounted container;
- a FIFO queue of requests made while no container is mounted;
- a counter that hands out sequential ids.

The hub that links the core to the containers is not part of this model. An
emitted event is appended to a log in the state. Removing listeners removes
event names from a set of live listener names.

The whole state is one immutable record (`ModelState.State`). Every operation
is a pure function from a state to the next state. `Trace.Step` and
`Trace.Run` put the operations together into a state machine, so properties
can be stated over whole sequences of operations.

JavaScript objects (options and props) are finite maps from property names to
a small JavaScript value type (`JsValues.Value`). Because of this choice:

- object spread `{ ...a, ...b }` is map union;
- a property the object does not have reads as `undefined`;
- `||`, `&&` and `== null` follow JavaScript truthiness exactly (`0`, `""`,
  `false`, `null` and `undefined` are falsy).

Notification content (a React node or a render function) is a value too.
That lets `render || oldContent` in an update be modelled exactly.

Modules, one per concern of the source:

| file | module | what it holds |
|---|---|---|
| wrappers.dfy | Wrappers | `Option` |
| decimal.dfy | Decimal | decimal rendering of the counter and its inverse |
| js_values.dfy | JsValues | JavaScript values, truthiness, property read, spread, property names |
| toast_types.dfy | ToastTypes | notification kinds, themes, `Toast`, `ToastItem`, containers and their registry keys |
| mapper.dfy | Mapper | `toToastItem` |
| model_state.dfy | ModelState | the module-level state, events, queue entries |
| toast_ids.dfy | ToastIds | `generateToastId`, `getToastId` |
| options.dfy | Options | `mergeOptions`, the loading and dark presets |
| dispatch.dfy | Dispatch | `dispatchToast` and the functions that call it to show notifications |
| control.dfy | Control | `model.dismiss`, `model.clearWaitingQueue`, `model.isActive`, `getToast`, `model.update` |
| lifecycle.dfy | Lifecycle | the DidMount and WillUnmount handlers |
| trace.dfy | Trace | operations as steps, sequences of steps, the state invariant, id uniqueness |

## Model

| member | source | states |
|---|---|---|
| ToastIds.GenerateToastId | core/model.ts:41-43 | the id is the counter's current value as a decimal string, which parses back to the counter; the counter moves on by exactly one and nothing else in the state changes |
| Decimal.ParseShow | core/model.ts:42 | the decimal rendering of the counter can be read back, giving the counter |
| Decimal.ShowInjective | core/model.ts:42 | two counter values render to the same string only when they are equal |
| Decimal.Show | core/model.ts:42 | the counter rendered as the shortest decimal numeral: at least one character, digits only, no leading zero, and a single digit exactly when the counter is below ten |
| ToastIds.IdForInjective | core/model.ts:41-43 | ids handed out at different counter values differ |
| ToastIds.ConsecutiveIdsDistinct | core/model.ts:41-43 | ids for consecutive counter values are pairwise distinct |
| ToastIds.GetToastId | core/model.ts:48-52 | the result is always a string or a number; it is the caller's `toastId` with the state unchanged when options exist and that id is a string or number; otherwise it is the generated id for the current counter and the counter advances by one |
| Options.MergeOptions | core/model.ts:74-80 | every caller option other than `type` and `toastId` is kept with its value and nothing else is added; `type` is the caller's when truthy, else the given kind's name; `toastId` is chosen as getToastId chooses it, with the same effect on the counter |
| Options.LoadingOptions | core/model.ts:112-117 | the caller's options all survive; `autoClose`, `closeOnClick` and `closeButton` are `false` wherever the caller did not set them |
| Options.DarkOptions | core/model.ts:245-248 | the caller's options all survive; `theme` is `"dark"` unless the caller set it |
| Options.LoadingMerged | core/model.ts:110-117 | after merging the loading preset, each of the three switches is the caller's value if given, else `false`, and the other caller options survive |
| Options.DarkMerged | core/model.ts:243-248 | after merging the dark preset, the theme is the caller's if given, else `"dark"`, and the other caller options survive |
| Options.PresetsKeepIdChoice | core/model.ts:106-118 | wrapping options in either preset does not change which id the notification gets, nor the state merging leaves behind, so a preset costs a fresh id exactly when the bare options would |
| Options.PresetsKeepIdAndType | core/model.ts:112-117 | neither preset touches `toastId` or `type`: both read the same as in the caller's options, so the caller's id is usable after wrapping exactly when it was before |
| Dispatch.DispatchToast | core/model.ts:58-69 | the result is `options.toastId`; with no container the entry is appended to the end of the queue and nothing is emitted; with a container exactly one Show event is emitted and the queue is untouched; nothing else changes |
| Dispatch.Notify | core/model.ts:82-94 | the returned id is always a string or number; it is the caller's id when one was usable, else the id generated for the current counter; the content is dispatched with exactly the merged options: appended to the queue with no container, emitted as one Show otherwise, with nothing else changed beyond the merge's effect on the counter |
| Dispatch.LoadingToast | core/model.ts:106-118 | `model.loading` returns the caller's id when usable, else a freshly generated one |
| Dispatch.DarkToast | core/model.ts:242-249 | `model.dark` returns the caller's id when usable, else a freshly generated one |
| Dispatch.NotifyFrame | core/model.ts:58-94 | showing a notification changes only the queue (no container) or the log (some container), by one entry at the end carrying the content and the merged options; it advances the counter by one exactly when no caller id was usable |
| Dispatch.LoadingDispatched | core/model.ts:106-118 | `model.loading` queues or shows the content with options whose three switches are the caller's values when given, else `false`, whose type is the caller's when truthy, else "default", and which keep every other caller option |
| Dispatch.DarkDispatched | core/model.ts:242-249 | `model.dark` queues or shows the content with options whose theme is the caller's when given, else "dark", whose type is the caller's when truthy, else "default", and which keep every other caller option |
| Control.Keep | core/model.ts:258 | an entry is in the filtered queue iff it was in the queue, the id is not null or undefined, and its `toastId` differs strictly from the id; a null or undefined id leaves nothing |
| Control.KeepConcat | core/model.ts:258 | filtering preserves relative order: filtering a concatenation concatenates the filtered parts |
| Control.KeepCounts | core/model.ts:258 | each surviving entry keeps its multiplicity, and each removed entry has none left |
| Control.KeepIdempotent | core/model.ts:254-260 | dismissing the same id twice while unmounted removes nothing more the second time |
| Control.Dismiss | core/model.ts:254-260 | with a container mounted, exactly one Clear event is emitted and nothing else changes; with none, only the queue changes: it is emptied for a null or undefined id, else it loses exactly the entries with that `toastId`, keeping the rest in their order and with their multiplicities |
| Control.ClearWaitingQueueRequest | core/model.ts:265-266 | exactly one ClearWaitingQueue event is appended to the log and nothing else in the state changes; in particular the core's own queue and registry are untouched |
| Control.IsActive | core/model.ts:271-281 | true iff some registered container exposes an active check that reports the id |
| Control.GetToast | core/model.ts:33-36 | a notification is found only when a container is registered under the options' truthy `containerId`, or else under the latest key, and that container holds the id; what is found is that container's record for the id; nothing is found while the registry is empty |
| Control.UpdatedOptions | core/model.ts:294-304 | the update options override the old props key by key; `toastId` is the options' id when truthy, else the original; `updateId` is the given fresh id; `staleId` is the original id whenever the resulting id differs from it, and is otherwise only what the old props and update options carried; `render` is absent |
| Control.UpdatedContent | core/model.ts:303 | the content is the merged `render` when truthy, otherwise the old content |
| Control.Update | core/model.ts:290-306 | when the notification is not found the state is unchanged; otherwise exactly one Show event carries the updated content and options, with the `updateId` generated from the current counter; the counter advances by one and the queue is untouched |
| Control.UpdateLeavesQueue | core/model.ts:290-306 | an update never changes the queue, and does nothing at all while no container is registered |
| Lifecycle.ShowAll | core/model.ts:349-351 | one Show event per queued entry, with the same position, content and options |
| Lifecycle.ShowAllConcat | core/model.ts:349-351 | flushing a concatenated queue gives the two flushes one after the other |
| Lifecycle.Mount | core/model.ts:345-353 | the container is registered under its key, which becomes the latest key; every queued entry is appended to the log as a Show event in FIFO order after the earlier events; the queue ends empty; counter and listeners are unchanged |
| Lifecycle.FlushQueue | core/model.ts:349-351 | the `forEach` flush, one emit per entry, leaves the earlier log intact followed by one Show per queued entry in queue order, so it agrees with `ShowAll` of the queue |
| Lifecycle.Unmount | core/model.ts:355-363 | the container's key leaves the registry; when the registry ends empty the Show, Clear and ClearWaitingQueue listeners are removed; every other listener stays as it was; queue, log, counter and latest key are untouched |
| Lifecycle.MountUnmount | core/model.ts:345-363 | mounting and then unmounting the same container leaves no container under its key |
| Mapper.ToToastItem | utils/mapper.ts:3-12 | content, `containerId` and `theme` are copied; the item id is `props.toastId`; the status is passed through; data is `props.data` when truthy, else an empty object; the item's type is left unset |
| Mapper.ItemDataTruthy | utils/mapper.ts:9 | the item's data is never falsy |
| Mapper.ItemDependsOnlyOnMappedFields | utils/mapper.ts:4-11 | two notifications that agree on content, `toastId`, `containerId`, `theme` and `data` give the same item |
| ModelState.Init | core/model.ts:25-28 | at load the registry, queue and log are empty, there is no latest container, the counter is 1, and exactly the DidMount and WillUnmount listeners are installed |
| ModelState.Emit | core/model.ts:63 | an emit appends the event to the log and changes nothing else in the state |
| ToastTypes.KeyOf | core/model.ts:346 | the registry key is the container's `containerId` when that is truthy, else the container instance itself |
| Trace.StepIdsIssued | core/model.ts:41-52 | every operation generates ids only from the counter, one per counter value in increasing order, and never moves the counter back |
| Trace.RunIdsIssued | core/model.ts:41-52 | over a whole run, the generated ids are exactly those for the counter values the run used up, in order |
| Trace.IssuedDistinct | core/model.ts:41-43 | the ids for any range of counter values are pairwise distinct |
| Trace.RunIdsDistinct | core/model.ts:41-43 | no run of operations generates the same id twice |
| Trace.RunIdsAreNew | core/model.ts:41-43 | ids generated during a run differ from every id generated before it |
| Trace.InitInv | core/model.ts:25-28 | the load-time state satisfies the invariant |
| Trace.StepInv | core/model.ts:58-363 | every operation preserves the invariant: entries wait only while no container is registered; each container sits under its own key; the lifecycle listeners stay installed; the counter stays positive |
| Trace.RunInv | core/model.ts:58-363 | the invariant holds after any run from a state that satisfies it |
| Trace.StepKeepsListeners | core/model.ts:355-363 | no operation adds a listener, and the last unmount removes only flow listeners the load-time set does not hold, so the set stays the lifecycle pair |
| Trace.ListenersConstant | core/model.ts:345-363 | in every state reachable from load, the live listeners are exactly the DidMount and WillUnmount handlers |
| Trace.QueueUntouchedWhileMounted | core/model.ts:58-69 | while a container is registered, no operation other than a mount changes the queue |
| Trace.ReachableQueueUntouched | core/model.ts:62-66 | in every state reachable from load, no operation changes the queue while a container is registered, not even a mount |
| Trace.DispatchThenMount | core/model.ts:345-353 | a notification dispatched while nothing is mounted is shown at the next mount, after everything queued before it |
| Trace.DismissThenMount | core/model.ts:254-260 | after a dismissal with nothing mounted, the next mount shows exactly the surviving entries, in order |

## Left out

- `handlePromise` (`model.promise`) and `Confirm` (`model.confirm`): asynchronous Promise plumbing and callback closures.
- `model.onChange`: it subscribes a callback to the event hub; the hub's subscriptions are not modelled beyond the set of live listener names.
- The `setTimeout` deferral in `model.update`: only the synchronous body is modelled, as one transition.
- `WithMessageToast` wrapping in `createToastByType` and `modelMessage`: it is a React component. `Dispatch.Notify` takes the content already wrapped.
- The event hub itself (`core/eventManager`) is not part of this model. `emit` appends to the log whether or not a listener is installed. Delivering an event to listeners is not modelled.
- Containers register their own Show, Clear and ClearWaitingQueue listeners. That happens in container code, which is not part of this model. Because no modelled operation adds a listener name, the listener set is constant on states reachable from load (only the DidMount and WillUnmount listeners; `Trace.ListenersConstant`), and the removal of the flow listeners on the last unmount is stated for `Lifecycle.Unmount` in isolation but never visible along a sequence of operations.
- A container appears to the core only as an id, an identity, a lookup table of notifications and an optional set of active ids. Its rendering and its own state changes are not modelled.
- `isStr` and `isNum` are taken as `typeof` checks. Numbers are unbounded integers, so NaN, fractions and the 2^53 limit of the JavaScript counter are not represented.
- `Map` key equality is structural on the key datatype. For the string and number ids the core uses, that is the same as JavaScript's SameValueZero.
- `ToastItem`'s `type` field is named `itemType`, because `type` is a Dafny keyword.
- All React and MUI components, `hooks/useModel.ts`, the constant tables and the re-exports: rendering, DOM focus listeners and declarations with no behaviour of their own.

=== FILE: control.dfy ===
/** Acting on notifications already dispatched: dismissal, the active check and update. */
module Control {
  import opened Wrappers
  import opened JsValues
  import opened ToastTypes
  import opened ModelState
  import opened ToastIds
  import opened Dispatch

  /** A queued entry survives `dismiss(id)` when `id != null && entry.toastId !== id`. */
  predicate Survives(e: Entry, id: Value) {
    !IsNullish(id) && Get(e.options, ToastIdKey) != id
  }

  /** The queue filtered for the entries that survive `dismiss(id)`, in queue order. */
  function Keep(q: seq<Entry>, id: Value): (r: seq<Entry>)
    ensures |r| <= |q|
    ensures forall e :: e in r <==> e in q && Survives(e, id)
    ensures IsNullish(id) ==> r == []
    decreases |q|
  {
    if |q| == 0 then []
    else if Survives(q[0], id) then [q[0]] + Keep(q[1..], id)
    else Keep(q[1..], id)
  }

  /** Filtering a concatenation filters each part and keeps them in order. */
  lemma {:induction false} KeepConcat(a: seq<Entry>, b: seq<Entry>, id: Value)
    ensures Keep(a + b, id) == Keep(a, id) + Keep(b, id)
    decreases |a|
  {
    if |a| == 0 {
      assert a + b == b;
    } else {
      assert (a + b)[1..] == a[1..] + b;
      KeepConcat(a[1..], b, id);
    }
  }

  /** Each entry occurs in the filtered queue as often as in the queue if it survives, else never. */
  lemma {:induction false} KeepCounts(q: seq<Entry>, id: Value, e: Entry)
    ensures multiset(Keep(q, id))[e] == if Survives(e, id) then multiset(q)[e] else 0
    decreases |q|
  {
    if |q| > 0 {
      assert q == [q[0]] + q[1..];
      KeepCounts(q[1..], id, e);
    }
  }

  /** Entries whose id differs from `id` are all kept, in their original order. */
  lemma {:induction false} KeepNoMatch(q: seq<Entry>, id: Value)
    requires !IsNullish(id)
    requires forall i :: 0 <= i < |q| ==> Get(q[i].options, ToastIdKey) != id
    ensures Keep(q, id) == q
    decreases |q|
  {
    if |q| > 0 {
      KeepNoMatch(q[1..], id);
    }
  }

  /** Dismissing twice with the same id removes nothing more. */
  lemma KeepIdempotent(q: seq<Entry>, id: Value)
    ensures Keep(Keep(q, id), id) == Keep(q, id)
  {
    if !IsNullish(id) {
      var r := Keep(q, id);
      forall i | 0 <= i < |r|
        ensures Get(r[i].options, ToastIdKey) != id
      {
        assert r[i] in r;
      }
      KeepNoMatch(r, id);
    }
  }

  /**
   * `model.dismiss(id)`: with a container mounted a Clear event is emitted
   * and the queue is left alone; otherwise the queue loses exactly the
   * entries with that id (all of them when `id` is null or undefined).
   */
  function Dismiss(s: State, id: Value): (s': State)
    ensures |s.containers| > 0 ==> s' == s.(events := s.events + [Clear(id)])
    ensures |s.containers| == 0 ==> s' == s.(queue := s'.queue)
    ensures |s.containers| == 0 && IsNullish(id) ==> s'.queue == []
    ensures |s.containers| == 0 ==> s'.queue == Keep(s.queue, id)
    ensures |s.containers| == 0 ==> forall e :: e in s'.queue <==> e in s.queue && Get(e.options, ToastIdKey) != id && !IsNullish(id)
    ensures |s.containers| == 0 ==> forall e :: multiset(s'.queue)[e] == if Survives(e, id) then multiset(s.queue)[e] else 0
  {
    if |s.containers| > 0 then Emit(s, Clear(id))
    else
      var q := Keep(s.queue, id);
      assert forall e :: multiset(q)[e] == if Survives(e, id) then multiset(s.queue)[e] else 0 by {
        forall e { KeepCounts(s.queue, id, e); }
      }
      s.(queue := q)
  }

  /** `model.clearWaitingQueue(params)`: forwarded to the containers as an event; the core's own queue is untouched. */
  function ClearWaitingQueueRequest(s: State, params: Props): (s': State)
    ensures s' == s.(events := s.events + [ClearWaitingQueue(params)])
    ensures s'.queue == s.queue && s'.containers == s.containers
  {
    Emit(s, ClearWaitingQueue(params))
  }

  /** `model.isActive(id)`: true iff some registered container reports the id active. */
  method IsActive(s: State, id: Value) returns (active: bool)
    ensures active <==> exists k :: k in s.containers && ReportsActive(s.containers[k], id)
  {
    active := false;
    var pending := s.containers.Keys;
    while pending != {}
      invariant pending <= s.containers.Keys
      invariant active <==> exists k :: k in s.containers.Keys - pending && ReportsActive(s.containers[k], id)
      decreases pending
    {
      var k :| k in pending;
      if ReportsActive(s.containers[k], id) {
        active := true;
      }
      pending := pending - {k};
    }
  }

  /** `containerId || latestInstance`: the registry key a lookup goes to, if any. */
  function LookupKey(s: State, options: Props): Option<ContainerKey> {
    if Truthy(Get(options, ContainerIdKey)) then Some(ById(Get(options, ContainerIdKey))) else s.latest
  }

  /**
   * `getToast(toastId, { containerId })`: the notification as held by the
   * container named in the options, or by the latest mounted one when the
   * options name none. Nothing is found while no container is registered.
   */
  function GetToast(s: State, toastId: Value, options: Props): (r: Option<Toast>)
    ensures r.Some? ==> |s.containers| > 0
    ensures r.Some? <==> (var k := LookupKey(s, options);
      k.Some? && k.value in s.containers && toastId in s.containers[k.value].toasts)
    ensures r.Some? ==> r.value == s.containers[LookupKey(s, options).value].toasts[toastId]
  {
    var key := LookupKey(s, options);
    if key.Some? && key.value in s.containers && toastId in s.containers[key.value].toasts then
      assert |s.containers| > 0 by { assert key.value in s.containers.Keys; }
      Some(s.containers[key.value].toasts[toastId])
    else None
  }

  /** Props the update writes itself rather than copying from the prior props or the update options. */
  const UpdateWritten: set<string> := {ToastIdKey, UpdateIdKey, StaleIdKey, RenderKey}

  /**
   * The options an update dispatches: the prior props overridden by the update
   * options, `toastId` from the options when truthy else the original id, a
   * fresh `updateId`, `staleId` pointing at the original id when the id
   * changed, and no `render`.
   */
  function UpdatedOptions(prior: Props, toastId: Value, options: Props, updateId: Value): (next: Props)
    ensures forall k :: k !in UpdateWritten ==> (k in next <==> k in prior || k in options)
    ensures forall k :: k !in UpdateWritten && k in options ==> next[k] == options[k]
    ensures forall k :: k !in UpdateWritten && k in prior && k !in options ==> next[k] == prior[k]
    ensures RenderKey !in next
    ensures ToastIdKey in next && UpdateIdKey in next
    ensures Truthy(Get(options, ToastIdKey)) ==> next[ToastIdKey] == options[ToastIdKey]
    ensures !Truthy(Get(options, ToastIdKey)) ==> next[ToastIdKey] == toastId
    ensures next[UpdateIdKey] == updateId
    ensures next[ToastIdKey] != toastId ==> StaleIdKey in next && next[StaleIdKey] == toastId
    ensures next[ToastIdKey] == toastId ==> Get(next, StaleIdKey) == Get(Spread(prior, options), StaleIdKey)
  {
    var merged := Spread(prior, options)[ToastIdKey := Or(Get(options, ToastIdKey), toastId)][UpdateIdKey := updateId];
    var marked := if merged[ToastIdKey] != toastId then merged[StaleIdKey := toastId] else merged;
    marked - {RenderKey}
  }

  /** `nextOptions.render || oldContent`: the new render when truthy, else the prior content. */
  function UpdatedContent(prior: Toast, options: Props): (c: Value)
    ensures RenderKey in options && Truthy(options[RenderKey]) ==> c == options[RenderKey]
    ensures RenderKey in options && !Truthy(options[RenderKey]) ==> c == prior.content
    ensures RenderKey !in options && Truthy(Get(prior.props, RenderKey)) ==> c == prior.props[RenderKey]
    ensures !Truthy(Get(Spread(prior.props, options), RenderKey)) ==> c == prior.content
  {
    Or(Get(Spread(prior.props, options), RenderKey), prior.content)
  }

  /**
   * The synchronous body of `model.update(toastId, options)`: when the
   * notification is found it is dispatched again with updated options and
   * content, consuming one id; otherwise nothing happens.
   */
  function Update(s: State, toastId: Value, options: Props): (s': State)
    ensures GetToast(s, toastId, options).None? ==> s' == s
    ensures GetToast(s, toastId, options).Some? ==>
      var prior := GetToast(s, toastId, options).value;
      s' == s.(counter := s.counter + 1,
               events := s.events + [Show(UpdatedContent(prior, options),
                                          UpdatedOptions(prior.props, toastId, options, IdFor(s.counter)))])
  {
    match GetToast(s, toastId, options)
    case None => s
    case Some(prior) =>
      var id := GenerateToastId(s);
      var next := UpdatedOptions(prior.props, toastId, options, id.value);
      DispatchToast(id.state, UpdatedContent(prior, options), next).state
  }

  /** An update never touches the queue, and does nothing at all while no container is registered. */
  lemma UpdateLeavesQueue(s: State, toastId: Value, options: Props)
    ensures Update(s, toastId, options).queue == s.queue
    ensures |s.containers| == 0 ==> Update(s, toastId, options) == s
  {
  }
}

=== FILE: decimal.dfy ===
/**
 * Decimal rendering of natural numbers, as a JavaScript template literal
 * `${n}` renders a non-negative integer, and its inverse.
 */
module Decimal {

  /** The character of a single decimal digit. */
  function DigitChar(d: nat): (c: char)
    requires d < 10
    ensures '0' <= c <= '9'
    ensures c as int - '0' as int == d
  {
    ('0' as int + d) as char
  }

  /** The numeric value of a decimal digit character. */
  function DigitValue(c: char): nat
    requires '0' <= c <= '9'
  {
    c as int - '0' as int
  }

  predicate IsDigits(s: string) {
    forall i :: 0 <= i < |s| ==> '0' <= s[i] <= '9'
  }

  /** Shortest decimal numeral of `n`: no sign, no leading zero. */
  function Show(n: nat): (s: string)
    ensures |s| >= 1
    ensures IsDigits(s)
    ensures |s| > 1 ==> s[0] != '0'
    ensures n < 10 <==> |s| == 1
  {
    if n < 10 then [DigitChar(n)] else Show(n / 10) + [DigitChar(n % 10)]
  }

  /** Reads a string of decimal digits back as a number. */
  function Parse(s: string): nat
    requires IsDigits(s)
  {
    if |s| == 0 then 0 else 10 * Parse(s[..|s| - 1]) + DigitValue(s[|s| - 1])
  }

  /** Reading back a rendered numeral gives the number that was rendered. */
  lemma {:induction false} ParseShow(n: nat)
    ensures Parse(Show(n)) == n
  {
    var s := Show(n);
    if n < 10 {
      assert s == [DigitChar(n)];
      assert s[..0] == [];
    } else {
      var p := Show(n / 10);
      assert s == p + [DigitChar(n % 10)];
      assert s[..|s| - 1] == p;
      ParseShow(n / 10);
    }
  }

  /** Distinct numbers render to distinct numerals. */
  lemma ShowInjective(m: nat, n: nat)
    ensures Show(m) == Show(n) <==> m == n
  {
    if Show(m) == Show(n) {
      ParseShow(m);
      ParseShow(n);
    }
  }
}

=== FILE: dispatch.dfy ===
/** Handing a notification to the mounted containers, or queueing it until one mounts. */
module Dispatch {
  import opened Wrappers
  import opened JsValues
  import opened ToastTypes
  import opened ModelState
  import opened ToastIds
  import opened Options

  /**
   * With a container mounted the notification is shown at once; otherwise
   * it joins the back of the queue. Either way the result is its `toastId`.
   */
  function DispatchToast(s: State, content: Value, options: Props): (r: Returned<Value>)
    ensures r.value == Get(options, ToastIdKey)
    ensures |s.containers| == 0 ==> r.state == s.(queue := s.queue + [Entry(content, options)])
    ensures |s.containers| > 0 ==> r.state == s.(events := s.events + [Show(content, options)])
  {
    var next := if |s.containers| > 0 then Emit(s, Show(content, options)) else s.(queue := s.queue + [Entry(content, options)]);
    Returned(Get(options, ToastIdKey), next)
  }

  /**
   * `model(content, options)` and the typed shortcuts (`model.success`,
   * `model.info`, ...): merge the options for `kind`, then dispatch.
   */
  function Notify(s: State, kind: TypeOption, content: Value, options: Option<Props>): (r: Returned<Value>)
    ensures IsId(r.value)
    ensures HasCallerId(options) ==> r.value == options.value[ToastIdKey]
    ensures !HasCallerId(options) ==> r.value == IdFor(s.counter)
    ensures |s.containers| == 0 ==> r.state == MergeOptions(s, kind, options).state.(
      queue := s.queue + [Entry(content, MergeOptions(s, kind, options).value)])
    ensures |s.containers| > 0 ==> r.state == MergeOptions(s, kind, options).state.(
      events := s.events + [Show(content, MergeOptions(s, kind, options).value)])
  {
    var merged := MergeOptions(s, kind, options);
    DispatchToast(merged.state, content, merged.value)
  }

  /** `model.loading`: a default notification with the loading preset under the caller's options. */
  function LoadingToast(s: State, content: Value, options: Option<Props>): (r: Returned<Value>)
    ensures HasCallerId(options) ==> r.value == options.value[ToastIdKey]
    ensures !HasCallerId(options) ==> r.value == IdFor(s.counter)
  {
    PresetsKeepIdChoice(s, options);
    Notify(s, Default, content, Some(LoadingOptions(options)))
  }

  /** `model.dark`: a default notification with the dark theme under the caller's options. */
  function DarkToast(s: State, content: Value, options: Option<Props>): (r: Returned<Value>)
    ensures HasCallerId(options) ==> r.value == options.value[ToastIdKey]
    ensures !HasCallerId(options) ==> r.value == IdFor(s.counter)
  {
    PresetsKeepIdChoice(s, options);
    Notify(s, Default, content, Some(DarkOptions(options)))
  }

  /**
   * `model.loading` queues or shows the content with options in which each
   * of the three switches is the caller's value when given, else `false`,
   * the type is the caller's when truthy, else "default", and every other
   * caller option is kept.
   */
  lemma LoadingDispatched(s: State, content: Value, options: Option<Props>)
    ensures var sent := MergeOptions(s, Default, Some(LoadingOptions(options))).value;
      var s' := LoadingToast(s, content, options).state;
      && (|s.containers| == 0 ==> s'.queue == s.queue + [Entry(content, sent)] && s'.events == s.events)
      && (|s.containers| > 0 ==> s'.events == s.events + [Show(content, sent)] && s'.queue == s.queue)
      && (forall k :: k in {AutoCloseKey, CloseOnClickKey, CloseButtonKey} ==>
            k in sent && sent[k] == (if k in options.GetOr(map[]) then options.value[k] else Bool(false)))
      && (forall k :: k != TypeKey && k != ToastIdKey && k in options.GetOr(map[]) ==>
            k in sent && sent[k] == options.value[k])
      && sent[TypeKey] == (if options.Some? && Truthy(Get(options.value, TypeKey)) then options.value[TypeKey] else Str(Default.Name()))
  {
    LoadingMerged(s, options);
    PresetsKeepIdAndType(options);
  }

  /**
   * `model.dark` queues or shows the content with options whose theme is the
   * caller's when given, else "dark", whose type is the caller's when
   * truthy, else "default", and which keep every other caller option.
   */
  lemma DarkDispatched(s: State, content: Value, options: Option<Props>)
    ensures var sent := MergeOptions(s, Default, Some(DarkOptions(options))).value;
      var s' := DarkToast(s, content, options).state;
      && (|s.containers| == 0 ==> s'.queue == s.queue + [Entry(content, sent)] && s'.events == s.events)
      && (|s.containers| > 0 ==> s'.events == s.events + [Show(content, sent)] && s'.queue == s.queue)
      && ThemeKey in sent
      && sent[ThemeKey] == (if ThemeKey in options.GetOr(map[]) then options.value[ThemeKey] else Str(Dark.Name()))
      && (forall k :: k != TypeKey && k != ToastIdKey && k in options.GetOr(map[]) ==>
            k in sent && sent[k] == options.value[k])
      && sent[TypeKey] == (if options.Some? && Truthy(Get(options.value, TypeKey)) then options.value[TypeKey] else Str(Default.Name()))
  {
    DarkMerged(s, options);
    PresetsKeepIdAndType(options);
  }

  /**
   * Whatever was dispatched, the only things that change are the queue (no
   * container) or the event log (some container), and the counter moves by
   * at most one, exactly when an id had to be generated.
   */
  lemma NotifyFrame(s: State, kind: TypeOption, content: Value, options: Option<Props>)
    ensures var s' := Notify(s, kind, content, options).state;
      && s'.containers == s.containers && s'.latest == s.latest && s'.listeners == s.listeners
      && s'.counter == (if HasCallerId(options) then s.counter else s.counter + 1)
      && (|s.containers| == 0 ==>
            s'.events == s.events && |s'.queue| == |s.queue| + 1 &&
            s'.queue[..|s.queue|] == s.queue &&
            s'.queue[|s.queue|] == Entry(content, MergeOptions(s, kind, options).value))
      && (|s.containers| > 0 ==>
            s'.queue == s.queue && |s'.events| == |s.events| + 1 &&
            s'.events[..|s.events|] == s.events &&
            s'.events[|s.events|] == Show(content, MergeOptions(s, kind, options).value))
  {
    var merged := MergeOptions(s, kind, options);
    var r := DispatchToast(merged.state, content, merged.value);
    if |s.containers| == 0 {
      assert r.state.queue == s.queue + [Entry(content, merged.value)];
    } else {
      assert r.state.events == s.events + [Show(content, merged.value)];
    }
  }
}

=== FILE: js_values.dfy ===
/**
 * The fragment of JavaScript values the notification core looks at:
 * options and props objects are finite maps from property names to values,
 * and content (a React node or a render function) is a value as well.
 */
module JsValues {

  /**
   * A JavaScript value. Numbers are integers (fractions and NaN are not
   * represented); `Obj` is a plain object, `Ref` any other object or
   * function (a React element, a render callback), known only by identity.
   */
  datatype Value =
    | Undefined
    | Null
    | Bool(b: bool)
    | Num(n: int)
    | Str(s: string)
    | Obj(fields: map<string, Value>)
    | Ref(handle: nat)

  /** A plain JavaScript object: the properties it owns and their values. */
  type Props = map<string, Value>

  /** JavaScript truthiness: `false`, `0`, `""`, `null` and `undefined` are falsy. */
  predicate Truthy(v: Value) {
    match v
    case Undefined => false
    case Null => false
    case Bool(b) => b
    case Num(n) => n != 0
    case Str(s) => s != ""
    case Obj(_) => true
    case Ref(_) => true
  }

  /** `v == null` in JavaScript's loose equality: true of null and undefined only. */
  predicate IsNullish(v: Value) {
    v.Undefined? || v.Null?
  }

  /** An `Id` (string or number), as the `isStr` / `isNum` guards accept it. */
  predicate IsId(v: Value) {
    v.Str? || v.Num?
  }

  /** `a || b` */
  function Or(a: Value, b: Value): (r: Value)
    ensures Truthy(a) ==> r == a
    ensures !Truthy(a) ==> r == b
  {
    if Truthy(a) then a else b
  }

  /** Property read `o.k`: a missing property reads as undefined. */
  function Get(o: Props, k: string): (v: Value)
    ensures k in o ==> v == o[k]
    ensures k !in o ==> v == Undefined
  {
    if k in o then o[k] else Undefined
  }

  /**
   * `{ ...a, ...b }`: every property of either object, with `b`'s value
   * where both have one.
   */
  function Spread(a: Props, b: Props): (r: Props)
    ensures r.Keys == a.Keys + b.Keys
    ensures forall k :: k in b ==> r[k] == b[k]
    ensures forall k :: k in a && k !in b ==> r[k] == a[k]
  {
    a + b
  }

  /** Property names the core reads or writes. */
  const ToastIdKey: string := "toastId"
  const TypeKey: string := "type"
  const ContainerIdKey: string := "containerId"
  const ThemeKey: string := "theme"
  const DataKey: string := "data"
  const RenderKey: string := "render"
  const UpdateIdKey: string := "updateId"
  const StaleIdKey: string := "staleId"
  const AutoCloseKey: string := "autoClose"
  const CloseOnClickKey: string := "closeOnClick"
  const CloseButtonKey: string := "closeButton"
}

=== FILE: lifecycle.dfy ===
/** Containers mounting and unmounting, as the core's DidMount and WillUnmount listeners handle them. */
module Lifecycle {
  import opened Wrappers
  import opened ToastTypes
  import opened ModelState

  /** The Show events for the queued entries, one per entry, in queue order. */
  function ShowAll(q: seq<Entry>): (r: seq<Event>)
    ensures |r| == |q|
    ensures forall i :: 0 <= i < |q| ==> r[i] == Show(q[i].content, q[i].options)
    decreases |q|
  {
    if |q| == 0 then [] else [Show(q[0].content, q[0].options)] + ShowAll(q[1..])
  }

  /** Flushing two queues one after the other is flushing their concatenation. */
  lemma ShowAllConcat(a: seq<Entry>, b: seq<Entry>)
    ensures ShowAll(a + b) == ShowAll(a) + ShowAll(b)
  {
    assert ShowAll(a + b) == ShowAll(a) + ShowAll(b) by {
      forall i | 0 <= i < |a| + |b|
        ensures ShowAll(a + b)[i] == (ShowAll(a) + ShowAll(b))[i]
      {
        if i < |a| { assert (a + b)[i] == a[i]; } else { assert (a + b)[i] == b[i - |a|]; }
      }
    }
  }

  /**
   * The DidMount handler: the container is registered under its key, which
   * becomes the latest instance; every queued entry is shown in FIFO order;
   * the queue is emptied.
   */
  function Mount(s: State, c: Container): (s': State)
    ensures s'.containers == s.containers[KeyOf(c) := c]
    ensures s'.latest == Some(KeyOf(c))
    ensures s'.queue == []
    ensures |s'.events| == |s.events| + |s.queue|
    ensures s'.events[..|s.events|] == s.events
    ensures forall i :: 0 <= i < |s.queue| ==>
      s'.events[|s.events| + i] == Show(s.queue[i].content, s.queue[i].options)
    ensures s'.counter == s.counter && s'.listeners == s.listeners
  {
    var key := KeyOf(c);
    State(s.containers[key := c], Some(key), [], s.counter, s.events + ShowAll(s.queue), s.listeners)
  }

  /**
   * The flush as the handler performs it, one `emit` per queued entry in a
   * `forEach`; it ends with the same log as `Mount`.
   */
  method FlushQueue(events: seq<Event>, queue: seq<Entry>) returns (log: seq<Event>)
    ensures |log| == |events| + |queue|
    ensures log[..|events|] == events
    ensures forall i :: 0 <= i < |queue| ==> log[|events| + i] == Show(queue[i].content, queue[i].options)
    ensures log == events + ShowAll(queue)
  {
    log := events;
    var n := 0;
    while n < |queue|
      invariant 0 <= n <= |queue|
      invariant |log| == |events| + n
      invariant log[..|events|] == events
      invariant forall i :: 0 <= i < n ==> log[|events| + i] == Show(queue[i].content, queue[i].options)
    {
      log := log + [Show(queue[n].content, queue[n].options)];
      n := n + 1;
    }
  }

  /**
   * The WillUnmount handler: the container's key leaves the registry; when
   * the registry is then empty, the Show, Clear and ClearWaitingQueue
   * listeners are removed and all others stay.
   */
  function Unmount(s: State, c: Container): (s': State)
    ensures s'.containers == s.containers - {KeyOf(c)}
    ensures KeyOf(c) !in s'.containers
    ensures |s'.containers| == 0 ==> s'.listeners == s.listeners - FlowListeners
    ensures |s'.containers| > 0 ==> s'.listeners == s.listeners
    ensures forall n :: n !in FlowListeners ==> (n in s'.listeners <==> n in s.listeners)
    ensures s'.queue == s.queue && s'.events == s.events && s'.counter == s.counter && s'.latest == s.latest
  {
    var remaining := s.containers - {KeyOf(c)};
    var listeners := if |remaining| == 0 then s.listeners - FlowListeners else s.listeners;
    s.(containers := remaining, listeners := listeners)
  }

  /** Mounting a container and then unmounting it leaves no container under its key. */
  lemma MountUnmount(s: State, c: Container)
    ensures Unmount(Mount(s, c), c).containers == s.containers - {KeyOf(c)}
  {
  }
}

=== FILE: mapper.dfy ===
/** The projection of an internal notification onto the item change listeners receive. */
module Mapper {
  import opened JsValues
  import opened ToastTypes

  /** Builds the public item for `toast` with the given change status. */
  function ToToastItem(toast: Toast, status: ToastItemStatus): (item: ToastItem)
    ensures item.content == toast.content
    ensures item.id == Get(toast.props, ToastIdKey)
    ensures item.containerId == Get(toast.props, ContainerIdKey)
    ensures item.theme == Get(toast.props, ThemeKey)
    ensures item.status == status
    ensures Truthy(Get(toast.props, DataKey)) ==> item.data == Get(toast.props, DataKey)
    ensures !Truthy(Get(toast.props, DataKey)) ==> item.data == Obj(map[])
    ensures item.itemType == Undefined
  {
    ToastItem(
      content := toast.content,
      id := Get(toast.props, ToastIdKey),
      theme := Get(toast.props, ThemeKey),
      itemType := Undefined,
      containerId := Get(toast.props, ContainerIdKey),
      data := Or(Get(toast.props, DataKey), Obj(map[])),
      status := status)
  }

  /** The item's data is always truthy: a falsy `data` prop becomes an empty object. */
  lemma ItemDataTruthy(toast: Toast, status: ToastItemStatus)
    ensures Truthy(ToToastItem(toast, status).data)
  {
  }

  /**
   * The item depends on the toast only through its content and four props:
   * two toasts that agree on those map to the same item, whatever else differs.
   */
  lemma ItemDependsOnlyOnMappedFields(t1: Toast, t2: Toast, status: ToastItemStatus)
    requires t1.content == t2.content
    requires forall k :: k in {ToastIdKey, ContainerIdKey, ThemeKey, DataKey} ==> Get(t1.props, k) == Get(t2.props, k)
    ensures ToToastItem(t1, status) == ToToastItem(t2, status)
  {
    assert Get(t1.props, ToastIdKey) == Get(t2.props, ToastIdKey);
    assert Get(t1.props, ContainerIdKey) == Get(t2.props, ContainerIdKey);
    assert Get(t1.props, ThemeKey) == Get(t2.props, ThemeKey);
    assert Get(t1.props, DataKey) == Get(t2.props, DataKey);
  }
}

=== FILE: model_state.dfy ===
/**
 * The module-level state of the notification core: the container registry,
 * the most recently mounted container, the queue of notifications waiting for
 * a container, and the id counter. The event hub is represented by the log of
 * events emitted so far and the set of event names that still have listeners.
 */
module ModelState {
  import opened Wrappers
  import opened JsValues
  import opened ToastTypes

  /** Event names of the hub. */
  datatype EventName = ShowEvent | ClearEvent | ClearWaitingQueueEvent | ChangeEvent | DidMountEvent | WillUnmountEvent

  /** An emitted event with its payload. */
  datatype Event =
    | Show(content: Value, options: Props)
    | Clear(id: Value)
    | ClearWaitingQueue(params: Props)

  /** A notification requested before any container was mounted. */
  datatype Entry = Entry(content: Value, options: Props)

  datatype State = State(
    containers: map<ContainerKey, Container>,
    latest: Option<ContainerKey>,
    queue: seq<Entry>,
    counter: nat,
    events: seq<Event>,
    listeners: set<EventName>)

  /** Listeners tied to the flow of notifications, dropped when the last container goes. */
  const FlowListeners: set<EventName> := {ShowEvent, ClearEvent, ClearWaitingQueueEvent}

  /** Listeners the core itself installs at load time. */
  const LifecycleListeners: set<EventName> := {DidMountEvent, WillUnmountEvent}

  /** The state at load time: nothing mounted, nothing queued, the counter at 1. */
  function Init(): (s: State)
    ensures s.containers == map[] && s.queue == [] && s.events == []
    ensures s.counter == 1
    ensures s.latest == None
    ensures s.listeners == LifecycleListeners
  {
    State(map[], None, [], 1, [], LifecycleListeners)
  }

  /** `eventManager.emit(e)`: the event is appended to the log; nothing else changes. */
  function Emit(s: State, e: Event): (s': State)
    ensures s'.events == s.events + [e]
    ensures s' == s.(events := s'.events)
  {
    s.(events := s.events + [e])
  }

  /** A value paired with the state it leaves behind. */
  datatype Returned<T> = Returned(value: T, state: State)
}

=== FILE: options.dfy ===
/** Building the options a notification is dispatched with. */
module Options {
  import opened Wrappers
  import opened JsValues
  import opened ToastTypes
  import opened ModelState
  import opened ToastIds

  /**
   * `{ ...options, type: (options && options.type) || type, toastId: getToastId(options) }`:
   * every caller option is kept except `type` and `toastId`, which are chosen.
   */
  function MergeOptions(s: State, kind: TypeOption, options: Option<Props>): (r: Returned<Props>)
    ensures forall k :: k != TypeKey && k != ToastIdKey ==>
      (k in r.value <==> options.Some? && k in options.value)
    ensures forall k :: k != TypeKey && k != ToastIdKey && options.Some? && k in options.value ==>
      k in r.value && r.value[k] == options.value[k]
    ensures TypeKey in r.value && ToastIdKey in r.value
    ensures options.Some? && Truthy(Get(options.value, TypeKey)) ==> r.value[TypeKey] == options.value[TypeKey]
    ensures !(options.Some? && Truthy(Get(options.value, TypeKey))) ==> r.value[TypeKey] == Str(kind.Name())
    ensures IsId(r.value[ToastIdKey])
    ensures HasCallerId(options) ==> r.value[ToastIdKey] == options.value[ToastIdKey] && r.state == s
    ensures !HasCallerId(options) ==> r.value[ToastIdKey] == IdFor(s.counter) && r.state == s.(counter := s.counter + 1)
  {
    var given := if options.Some? then options.value else map[];
    var chosenType := if options.Some? && Truthy(Get(given, TypeKey)) then given[TypeKey] else Str(kind.Name());
    var id := GetToastId(s, options);
    var merged := given[TypeKey := chosenType][ToastIdKey := id.value];
    assert merged.Keys == given.Keys + {TypeKey, ToastIdKey};
    Returned(merged, id.state)
  }

  /** `{ autoClose: false, closeOnClick: false, closeButton: false, ...options }` */
  function LoadingOptions(options: Option<Props>): (r: Props)
    ensures forall k :: k in options.GetOr(map[]) ==> k in r && r[k] == options.value[k]
    ensures forall k :: k in {AutoCloseKey, CloseOnClickKey, CloseButtonKey} && k !in options.GetOr(map[]) ==>
      k in r && r[k] == Bool(false)
    ensures r.Keys == options.GetOr(map[]).Keys + {AutoCloseKey, CloseOnClickKey, CloseButtonKey}
  {
    Spread(map[AutoCloseKey := Bool(false), CloseOnClickKey := Bool(false), CloseButtonKey := Bool(false)],
           options.GetOr(map[]))
  }

  /** `{ theme: "dark", ...options }` */
  function DarkOptions(options: Option<Props>): (r: Props)
    ensures forall k :: k in options.GetOr(map[]) ==> k in r && r[k] == options.value[k]
    ensures ThemeKey !in options.GetOr(map[]) ==> ThemeKey in r && r[ThemeKey] == Str(Dark.Name())
    ensures r.Keys == options.GetOr(map[]).Keys + {ThemeKey}
  {
    Spread(map[ThemeKey := Str(Dark.Name())], options.GetOr(map[]))
  }

  /**
   * The loading preset after merging: the three switches are off unless the
   * caller set them, and every caller option other than `type` and
   * `toastId` survives unchanged.
   */
  lemma LoadingMerged(s: State, options: Option<Props>)
    ensures var r := MergeOptions(s, Default, Some(LoadingOptions(options))).value;
      && (forall k :: k in {AutoCloseKey, CloseOnClickKey, CloseButtonKey} ==>
            k in r && r[k] == (if k in options.GetOr(map[]) then options.value[k] else Bool(false)))
      && (forall k :: k != TypeKey && k != ToastIdKey && k in options.GetOr(map[]) ==>
            k in r && r[k] == options.value[k])
  {
  }

  /**
   * The dark preset after merging: the theme is dark unless the caller chose
   * one, and every caller option other than `type` and `toastId` survives.
   */
  lemma DarkMerged(s: State, options: Option<Props>)
    ensures var r := MergeOptions(s, Default, Some(DarkOptions(options))).value;
      && ThemeKey in r
      && r[ThemeKey] == (if ThemeKey in options.GetOr(map[]) then options.value[ThemeKey] else Str("dark"))
      && (forall k :: k != TypeKey && k != ToastIdKey && k in options.GetOr(map[]) ==>
            k in r && r[k] == options.value[k])
  {
  }

  /**
   * Neither preset supplies a `toastId` or a `type`: those read the same in
   * the preset options as in the caller's, so the caller's id stays usable
   * exactly when it was.
   */
  lemma PresetsKeepIdAndType(options: Option<Props>)
    ensures forall k :: k in {ToastIdKey, TypeKey} ==>
      Get(LoadingOptions(options), k) == Get(options.GetOr(map[]), k) &&
      Get(DarkOptions(options), k) == Get(options.GetOr(map[]), k)
    ensures HasCallerId(Some(LoadingOptions(options))) == HasCallerId(options)
    ensures HasCallerId(Some(DarkOptions(options))) == HasCallerId(options)
  {
    var given := options.GetOr(map[]);
    forall k | k in {ToastIdKey, TypeKey}
      ensures Get(LoadingOptions(options), k) == Get(given, k)
      ensures Get(DarkOptions(options), k) == Get(given, k)
    {
      assert k in LoadingOptions(options) <==> k in given;
      assert k in DarkOptions(options) <==> k in given;
    }
    assert Get(LoadingOptions(options), ToastIdKey) == Get(given, ToastIdKey);
    assert Get(DarkOptions(options), ToastIdKey) == Get(given, ToastIdKey);
  }

  /**
   * The presets never cost a fresh id when the caller supplied one, and
   * always cost exactly one otherwise: wrapping the options does not change
   * which id the notification gets.
   */
  lemma PresetsKeepIdChoice(s: State, options: Option<Props>)
    ensures MergeOptions(s, Default, Some(LoadingOptions(options))).value[ToastIdKey]
         == MergeOptions(s, Default, options).value[ToastIdKey]
    ensures MergeOptions(s, Default, Some(DarkOptions(options))).value[ToastIdKey]
         == MergeOptions(s, Default, options).value[ToastIdKey]
    ensures MergeOptions(s, Default, Some(LoadingOptions(options))).state
         == MergeOptions(s, Default, options).state
    ensures MergeOptions(s, Default, Some(DarkOptions(options))).state
         == MergeOptions(s, Default, options).state
  {
    PresetsKeepIdAndType(options);
  }
}

=== FILE: toast_ids.dfy ===
/** Notification ids: the sequential generator and the choice between a caller's id and a fresh one. */
module ToastIds {
  import opened Wrappers
  import opened JsValues
  import opened ModelState
  import Decimal

  /** The id the generator hands out when the counter stands at `c`. */
  function IdFor(c: nat): Value {
    Str(Decimal.Show(c))
  }

  /**
   * `${TOAST_ID++}`: the counter's current value as a decimal string; the
   * counter moves on by one and nothing else changes.
   */
  function GenerateToastId(s: State): (r: Returned<Value>)
    ensures r.value == IdFor(s.counter)
    ensures r.value.Str? && Decimal.IsDigits(r.value.s) && Decimal.Parse(r.value.s) == s.counter
    ensures r.state.counter == s.counter + 1
    ensures r.state == s.(counter := r.state.counter)
  {
    Decimal.ParseShow(s.counter);
    Returned(IdFor(s.counter), s.(counter := s.counter + 1))
  }

  /** Ids handed out at different counter values differ. */
  lemma IdForInjective(c1: nat, c2: nat)
    ensures IdFor(c1) == IdFor(c2) <==> c1 == c2
  {
    Decimal.ShowInjective(c1, c2);
  }

  /** True when the caller supplied a usable id: options exist and `toastId` is a string or a number. */
  predicate HasCallerId(options: Option<Props>) {
    options.Some? && IsId(Get(options.value, ToastIdKey))
  }

  /** The caller's `toastId` when it is a string or number, otherwise a freshly generated id. */
  function GetToastId(s: State, options: Option<Props>): (r: Returned<Value>)
    ensures IsId(r.value)
    ensures HasCallerId(options) ==> r.value == Get(options.value, ToastIdKey) && r.state == s
    ensures !HasCallerId(options) ==> r.value == IdFor(s.counter) && r.state == s.(counter := s.counter + 1)
  {
    if HasCallerId(options) then Returned(Get(options.value, ToastIdKey), s) else GenerateToastId(s)
  }

  /** Ids for consecutive counter values are pairwise distinct. */
  lemma ConsecutiveIdsDistinct(c: nat, ids: seq<Value>)
    requires forall i :: 0 <= i < |ids| ==> ids[i] == IdFor(c + i)
    ensures forall i, j :: 0 <= i < j < |ids| ==> ids[i] != ids[j]
  {
    forall i, j | 0 <= i < j < |ids|
      ensures ids[i] != ids[j]
    {
      IdForInjective(c + i, c + j);
    }
  }
}

=== FILE: toast_types.dfy ===
/** The records the notification core passes around. */
module ToastTypes {
  import opened Wrappers
  import opened JsValues

  /** The notification kinds; each is stored in options as its lower-case name. */
  datatype TypeOption = Info | Success | Warning | Error | Default {
    function Name(): string {
      match this
      case Info => "info"
      case Success => "success"
      case Warning => "warning"
      case Error => "error"
      case Default => "default"
    }
  }

  /** The colour themes; each is stored in options as its lower-case name. */
  datatype Theme = Light | Dark | Colored {
    function Name(): string {
      match this
      case Light => "light"
      case Dark => "dark"
      case Colored => "colored"
    }
  }

  /** A notification a container holds: its content and its props. */
  datatype Toast = Toast(content: Value, props: Props)

  datatype ToastItemStatus = Added | Removed | Updated

  /**
   * The public view of a notification handed to change listeners. A property
   * the mapper does not write reads as `Undefined`.
   */
  datatype ToastItem = ToastItem(
    content: Value,
    id: Value,
    theme: Value,
    itemType: Value,
    containerId: Value,
    data: Value,
    status: ToastItemStatus)

  /**
   * A mounted container, seen from the core: an identity, an optional
   * `containerId`, the notifications it can look up by id, and, when it
   * exposes `isToastActive`, the ids it reports active.
   */
  datatype Container = Container(
    handle: nat,
    containerId: Value,
    toasts: map<Value, Toast>,
    activeIds: Option<set<Value>>)

  /** The registry key of a container: its id when truthy, else the instance itself. */
  datatype ContainerKey = ById(id: Value) | ByInstance(handle: nat)

  /** `containerInstance.containerId || containerInstance` */
  function KeyOf(c: Container): (k: ContainerKey)
    ensures Truthy(c.containerId) ==> k == ById(c.containerId)
    ensures !Truthy(c.containerId) ==> k == ByInstance(c.handle)
  {
    if Truthy(c.containerId) then ById(c.containerId) else ByInstance(c.handle)
  }

  /** `container.isToastActive && container.isToastActive(id)` */
  predicate ReportsActive(c: Container, id: Value) {
    c.activeIds.Some? && id in c.activeIds.value
  }
}

=== FILE: trace.dfy ===
/**
 * The core as a state machine: every public operation is one step, and
 * properties are stated over whole runs of steps from any state.
 */
module Trace {
  import opened Wrappers
  import opened JsValues
  import opened ToastTypes
  import opened ModelState
  import opened ToastIds
  import opened Options
  import opened Dispatch
  import opened Control
  import opened Lifecycle

  /** The operations of the core that change its state. */
  datatype Op =
    | NotifyOp(kind: TypeOption, content: Value, options: Option<Props>)
    | LoadingOp(content: Value, options: Option<Props>)
    | DarkOp(content: Value, options: Option<Props>)
    | DismissOp(id: Value)
    | ClearWaitingQueueOp(params: Props)
    | UpdateOp(toastId: Value, updates: Props)
    | MountOp(container: Container)
    | UnmountOp(container: Container)

  function Step(s: State, op: Op): State {
    match op
    case NotifyOp(kind, content, options) => Notify(s, kind, content, options).state
    case LoadingOp(content, options) => LoadingToast(s, content, options).state
    case DarkOp(content, options) => DarkToast(s, content, options).state
    case DismissOp(id) => Dismiss(s, id)
    case ClearWaitingQueueOp(params) => ClearWaitingQueueRequest(s, params)
    case UpdateOp(toastId, updates) => Update(s, toastId, updates)
    case MountOp(c) => Mount(s, c)
    case UnmountOp(c) => Unmount(s, c)
  }

  function Run(s: State, ops: seq<Op>): State
    decreases |ops|
  {
    if |ops| == 0 then s else Run(Step(s, ops[0]), ops[1..])
  }

  /**
   * The ids a step generated, read off what the step produced: the id a
   * dispatch returned when the caller gave none, the `updateId` an update
   * dispatched.
   */
  function StepIds(s: State, op: Op): seq<Value> {
    match op
    case NotifyOp(kind, content, options) =>
      if HasCallerId(options) then [] else [Notify(s, kind, content, options).value]
    case LoadingOp(content, options) =>
      if HasCallerId(options) then [] else [LoadingToast(s, content, options).value]
    case DarkOp(content, options) =>
      if HasCallerId(options) then [] else [DarkToast(s, content, options).value]
    case UpdateOp(toastId, updates) =>
      var s' := Update(s, toastId, updates);
      if GetToast(s, toastId, updates).Some? then [Get(s'.events[|s'.events| - 1].options, UpdateIdKey)] else []
    case _ => []
  }

  /** The ids generated along a run, in order. */
  function RunIds(s: State, ops: seq<Op>): seq<Value>
    decreases |ops|
  {
    if |ops| == 0 then [] else StepIds(s, ops[0]) + RunIds(Step(s, ops[0]), ops[1..])
  }

  /** The ids the generator hands out as the counter goes from `lo` up to `hi`. */
  function Issued(lo: nat, hi: nat): (r: seq<Value>)
    requires lo <= hi
    ensures |r| == hi - lo
    ensures forall i :: 0 <= i < |r| ==> r[i] == IdFor(lo + i)
  {
    seq(hi - lo, i requires 0 <= i < hi - lo => IdFor(lo + i))
  }

  lemma IssuedConcat(lo: nat, mid: nat, hi: nat)
    requires lo <= mid <= hi
    ensures Issued(lo, mid) + Issued(mid, hi) == Issued(lo, hi)
  {
  }

  lemma IssuedOne(c: nat)
    ensures Issued(c, c + 1) == [IdFor(c)]
  {
  }

  lemma NotifyIdsIssued(s: State, kind: TypeOption, content: Value, options: Option<Props>)
    ensures var s' := Notify(s, kind, content, options).state;
      s.counter <= s'.counter &&
      (if HasCallerId(options) then [] else [Notify(s, kind, content, options).value]) == Issued(s.counter, s'.counter)
  {
    NotifyFrame(s, kind, content, options);
    IssuedOne(s.counter);
  }

  lemma NotifyStepIssued(s: State, kind: TypeOption, content: Value, options: Option<Props>)
    ensures s.counter <= Step(s, NotifyOp(kind, content, options)).counter
    ensures StepIds(s, NotifyOp(kind, content, options)) == Issued(s.counter, Step(s, NotifyOp(kind, content, options)).counter)
  {
    NotifyIdsIssued(s, kind, content, options);
  }

  lemma LoadingStepIssued(s: State, content: Value, options: Option<Props>)
    ensures s.counter <= Step(s, LoadingOp(content, options)).counter
    ensures StepIds(s, LoadingOp(content, options)) == Issued(s.counter, Step(s, LoadingOp(content, options)).counter)
  {
    PresetsKeepIdAndType(options);
    NotifyIdsIssued(s, Default, content, Some(LoadingOptions(options)));
    assert LoadingToast(s, content, options) == Notify(s, Default, content, Some(LoadingOptions(options)));
  }

  lemma DarkStepIssued(s: State, content: Value, options: Option<Props>)
    ensures s.counter <= Step(s, DarkOp(content, options)).counter
    ensures StepIds(s, DarkOp(content, options)) == Issued(s.counter, Step(s, DarkOp(content, options)).counter)
  {
    PresetsKeepIdAndType(options);
    NotifyIdsIssued(s, Default, content, Some(DarkOptions(options)));
    assert DarkToast(s, content, options) == Notify(s, Default, content, Some(DarkOptions(options)));
  }

  lemma UpdateIdsIssued(s: State, toastId: Value, updates: Props)
    ensures s.counter <= Step(s, UpdateOp(toastId, updates)).counter
    ensures StepIds(s, UpdateOp(toastId, updates)) == Issued(s.counter, Step(s, UpdateOp(toastId, updates)).counter)
  {
    IssuedOne(s.counter);
  }

  /** Dismissal, the waiting-queue request, mount and unmount generate no id and leave the counter alone. */
  lemma QuietStepIssued(s: State, op: Op)
    requires op.DismissOp? || op.ClearWaitingQueueOp? || op.MountOp? || op.UnmountOp?
    ensures Step(s, op).counter == s.counter
    ensures StepIds(s, op) == Issued(s.counter, Step(s, op).counter)
  {
  }

  /** Every step generates ids only from the counter, one per counter value, advancing it past them. */
  lemma StepIdsIssued(s: State, op: Op)
    ensures s.counter <= Step(s, op).counter
    ensures StepIds(s, op) == Issued(s.counter, Step(s, op).counter)
  {
    match op {
      case NotifyOp(kind, content, options) => NotifyStepIssued(s, kind, content, options);
      case LoadingOp(content, options) => LoadingStepIssued(s, content, options);
      case DarkOp(content, options) => DarkStepIssued(s, content, options);
      case UpdateOp(toastId, updates) => UpdateIdsIssued(s, toastId, updates);
      case DismissOp(id) => QuietStepIssued(s, op);
      case ClearWaitingQueueOp(params) => QuietStepIssued(s, op);
      case MountOp(c) => QuietStepIssued(s, op);
      case UnmountOp(c) => QuietStepIssued(s, op);
    }
  }

  /** The ids generated along a run are exactly those for the counter values the run used up. */
  lemma {:induction false} RunIdsIssued(s: State, ops: seq<Op>)
    ensures s.counter <= Run(s, ops).counter
    ensures RunIds(s, ops) == Issued(s.counter, Run(s, ops).counter)
    decreases |ops|
  {
    if |ops| > 0 {
      var s1 := Step(s, ops[0]);
      StepIdsIssued(s, ops[0]);
      RunIdsIssued(s1, ops[1..]);
      IssuedConcat(s.counter, s1.counter, Run(s1, ops[1..]).counter);
    }
  }

  /** The ids for a range of counter values are pairwise distinct. */
  lemma IssuedDistinct(lo: nat, hi: nat)
    requires lo <= hi
    ensures forall i, j :: 0 <= i < j < |Issued(lo, hi)| ==> Issued(lo, hi)[i] != Issued(lo, hi)[j]
  {
    ConsecutiveIdsDistinct(lo, Issued(lo, hi));
  }

  /** No run of operations ever generates the same id twice. */
  lemma RunIdsDistinct(s: State, ops: seq<Op>)
    ensures forall i, j :: 0 <= i < j < |RunIds(s, ops)| ==> RunIds(s, ops)[i] != RunIds(s, ops)[j]
  {
    RunIdsIssued(s, ops);
    IssuedDistinct(s.counter, Run(s, ops).counter);
  }

  lemma IssuedAvoids(lo: nat, hi: nat, c: nat)
    requires c < lo <= hi
    ensures IdFor(c) !in Issued(lo, hi)
  {
    var ids := Issued(lo, hi);
    forall i | 0 <= i < |ids|
      ensures ids[i] != IdFor(c)
    {
      IdForInjective(lo + i, c);
    }
  }

  /** Ids generated in a run also differ from every id generated before it, at lower counter values. */
  lemma RunIdsAreNew(s: State, ops: seq<Op>, c: nat)
    requires c < s.counter
    ensures IdFor(c) !in RunIds(s, ops)
  {
    RunIdsIssued(s, ops);
    IssuedAvoids(s.counter, Run(s, ops).counter, c);
  }

  /**
   * What every reachable state satisfies: entries wait in the queue only
   * while no container is registered, each container is registered under its
   * own key, the lifecycle listeners stay installed, and the counter is positive.
   */
  ghost predicate Inv(s: State) {
    && (|s.containers| > 0 ==> s.queue == [])
    && (forall k :: k in s.containers ==> KeyOf(s.containers[k]) == k)
    && LifecycleListeners <= s.listeners
    && s.counter >= 1
  }

  lemma InitInv()
    ensures Inv(Init())
  {
  }

  /** A step with a container registered leaves the queue as it was, unless it is itself a mount. */
  lemma QueueUntouchedWhileMounted(s: State, op: Op)
    requires |s.containers| > 0 && !op.MountOp?
    ensures Step(s, op).queue == s.queue
  {
    match op {
      case NotifyOp(kind, content, options) => NotifyFrame(s, kind, content, options);
      case LoadingOp(content, options) => NotifyFrame(s, Default, content, Some(LoadingOptions(options)));
      case DarkOp(content, options) => NotifyFrame(s, Default, content, Some(DarkOptions(options)));
      case UpdateOp(toastId, updates) => UpdateLeavesQueue(s, toastId, updates);
      case DismissOp(id) =>
      case ClearWaitingQueueOp(params) =>
      case UnmountOp(c) =>
    }
  }

  lemma NotifyInv(s: State, kind: TypeOption, content: Value, options: Option<Props>)
    requires Inv(s)
    ensures Inv(Notify(s, kind, content, options).state)
  {
    NotifyFrame(s, kind, content, options);
  }

  lemma MountInv(s: State, c: Container)
    requires Inv(s)
    ensures Inv(Mount(s, c))
  {
    var s' := Mount(s, c);
    assert forall k :: k in s'.containers ==> KeyOf(s'.containers[k]) == k;
  }

  lemma UnmountInv(s: State, c: Container)
    requires Inv(s)
    ensures Inv(Unmount(s, c))
  {
    var s' := Unmount(s, c);
    if |s'.containers| > 0 {
      var k :| k in s'.containers;
      assert k in s.containers;
    }
  }

  lemma StepInv(s: State, op: Op)
    requires Inv(s)
    ensures Inv(Step(s, op))
  {
    match op {
      case NotifyOp(kind, content, options) => NotifyInv(s, kind, content, options);
      case LoadingOp(content, options) => NotifyInv(s, Default, content, Some(LoadingOptions(options)));
      case DarkOp(content, options) => NotifyInv(s, Default, content, Some(DarkOptions(options)));
      case UpdateOp(toastId, updates) => UpdateLeavesQueue(s, toastId, updates);
      case DismissOp(id) =>
      case ClearWaitingQueueOp(params) =>
      case MountOp(c) => MountInv(s, c);
      case UnmountOp(c) => UnmountInv(s, c);
    }
  }

  lemma {:induction false} RunInv(s: State, ops: seq<Op>)
    requires Inv(s)
    ensures Inv(Run(s, ops))
    decreases |ops|
  {
    if |ops| > 0 {
      StepInv(s, ops[0]);
      RunInv(Step(s, ops[0]), ops[1..]);
    }
  }

  /** In every reachable state, no step changes the queue while a container is registered. */
  lemma ReachableQueueUntouched(ops: seq<Op>, op: Op)
    ensures var s := Run(Init(), ops);
      |s.containers| > 0 ==> Step(s, op).queue == s.queue
  {
    InitInv();
    RunInv(Init(), ops);
    var s := Run(Init(), ops);
    if |s.containers| > 0 && !op.MountOp? {
      QueueUntouchedWhileMounted(s, op);
    }
  }

  /**
   * FIFO end to end: a notification dispatched while nothing is mounted is
   * shown when a container mounts, after everything queued before it.
   */
  lemma DispatchThenMount(s: State, content: Value, options: Props, c: Container)
    requires |s.containers| == 0
    ensures Mount(DispatchToast(s, content, options).state, c).events
         == s.events + ShowAll(s.queue) + [Show(content, options)]
  {
    ShowAllConcat(s.queue, [Entry(content, options)]);
  }

  /** A dismissal while nothing is mounted decides which entries the next mount shows: exactly the survivors, in order. */
  lemma DismissThenMount(s: State, id: Value, c: Container)
    requires |s.containers| == 0
    ensures Mount(Dismiss(s, id), c).events == s.events + ShowAll(Keep(s.queue, id))
  {
  }

  /** A step leaves the listener set as it is while it holds only the lifecycle listeners. */
  lemma StepKeepsListeners(s: State, op: Op)
    requires s.listeners == LifecycleListeners
    ensures Step(s, op).listeners == LifecycleListeners
  {
    match op {
      case NotifyOp(kind, content, options) => NotifyFrame(s, kind, content, options);
      case LoadingOp(content, options) => NotifyFrame(s, Default, content, Some(LoadingOptions(options)));
      case DarkOp(content, options) => NotifyFrame(s, Default, content, Some(DarkOptions(options)));
      case UpdateOp(toastId, updates) =>
      case DismissOp(id) =>
      case ClearWaitingQueueOp(params) =>
      case MountOp(c) =>
      case UnmountOp(c) =>
        assert LifecycleListeners - FlowListeners == LifecycleListeners;
    }
  }

  /**
   * No operation installs a listener, and the last unmount only removes flow
   * listeners, so from load the listener set is always exactly the
   * lifecycle listeners.
   */
  lemma {:induction false} ListenersConstantFrom(s: State, ops: seq<Op>)
    requires s.listeners == LifecycleListeners
    ensures Run(s, ops).listeners == LifecycleListeners
    decreases |ops|
  {
    if |ops| > 0 {
      StepKeepsListeners(s, ops[0]);
      ListenersConstantFrom(Step(s, ops[0]), ops[1..]);
    }
  }

  lemma ListenersConstant(ops: seq<Op>)
    ensures Run(Init(), ops).listeners == LifecycleListeners
  {
    ListenersConstantFrom(Init(), ops);
  }
}

=== FILE: wrappers.dfy ===
/** A value that may be missing, for what the source leaves `undefined`. */
module Wrappers {

  datatype Option<+T> = None | Some(value: T) {

    /** The held value, or `fallback` when nothing is held. */
    function GetOr(fallback: T): T {
      if Some? then value else fallback
    }
  }
}
